=== FILE: README.md ===
# Equity loan portal: the wizard's business rules in Dafny

This project models the business rules of a client-side, five-step loan
application wizard: Personal, Loan, Employment, Documents and Review. The model
has four parts.

- **Field validation** (`Schemas.dfy`):
  - the Kenyan national-ID rule: 7–8 digits plus a Luhn-style checksum;
  - the Kenyan mobile-number pattern and its normalising transform;
  - the rules for full name, date of birth (age by calendar year), loan
    amount, tenure, purpose and monthly income;
  - the per-section parse that yields the submitted values.
- **The application store** (`Store.dfy`): a `LoanStore` class whose fields
  are the store's state: step, three sections, five document slots, and
  the metadata. Its methods are the store's actions: `SetStep`, the four
  partial-patch merges and `ClearStore`. The module also holds the persisted
  projection and the derived application summary. Each method's
  postcondition ties the new `State()` to a function of the old one. Lemmas
  about those functions state idempotence, reset and projection properties.
- **Step gating** (`LoanForm.dfy`):
  - which section each step validates;
  - the Next, Previous, Review, Submit and Save Progress handlers and the
    conditions under which each button is rendered;
  - the tenure buttons.

  Whether a section validates is an oracle parameter. A lemma shows that
  clicks on rendered buttons keep the step in 1..5.
- **Document upload** (`DocumentUpload.dfy`):
  - classifying a file by its lower-cased name;
  - the store slot of each document type;
  - an `UploadList` class holding the uploaded-file entries, which the
    upload, tick, scan and remove steps update by id. Its invariant is that
    every entry is in a consistent phase.

Behaviour of the code that the model keeps as it is:

- A bare subscriber number `7XXXXXXXX` normalises to `+7XXXXXXXX`, and the
  pattern then rejects that string (`Schemas.NormalizedReparses`).
- Any purpose string is accepted. This includes the form's own lower-case
  option values, which are not in the upper-case enumeration.
- A full name made only of whitespace is accepted.
- `setStep` has no range check. `clearStore` keeps `createdAt` and
  `sessionId`.
- `existingCustomer = false` makes the personal section incomplete in the
  summary.
- Any file name containing "residence" is classified as an id document,
  because "res**id**ence" contains "id". So only names with "utility" are
  ever classified as proof of residence.
- A scanned file is written to its store slot even when the scan reported a
  virus.

Where the code's own comments, markup and constants promise more than the
code does, the model follows the code:

- The comment "Normalize to +254 format" (`schemas.ts:28`) promises a
  `+254` number. The transform turns a bare subscriber number into `+7…`.
- The summary counts five steps (`totalSteps: 5`, `loanStore.ts:163`), but
  `setStep` accepts any number. Only the render guards of the navigation
  buttons keep the step in 1..5 (`LoanForm.ClicksStayInWizard`).
- The schema never rejects a low income: `monthlyIncome` only has to be at
  least 0 (`schemas.ts:73`). The 15000 floor appears only as the income
  input's `min` attribute and the "Minimum income: 15,000 KES" hint
  (`LoanForm.tsx:368`, `LoanForm.tsx:376`), and as the strict `> 15000` of
  the summary's completeness flag (`loanStore.ts:172`).

Integers are unbounded and exact. Timestamps are integer milliseconds and
identifiers are strings, both passed in by the caller.

## Model

| member | source | states |
|---|---|---|
| `Schemas.KenyanIdAccepted` | equity-loan-portal/src/validation/schemas.ts:5-22 | The national-ID rule: 7 or 8 characters, all decimal digits, checksum total a multiple of 10; `CheckKenyanId` is proved to compute exactly this |
| `Schemas.CheckKenyanId` | equity-loan-portal/src/validation/schemas.ts:5-22 | The result is true iff the ID has 7 or 8 characters, all decimal digits, and its checksum total is a multiple of 10; the loop scanning from the rightmost digit and toggling `isSecond` computes exactly that total |
| `Schemas.Contribution` | equity-loan-portal/src/validation/schemas.ts:16-18 | A digit's contribution `d/10 + d%10` (after doubling when it is a second digit) lies in 0..9, equals the digit when not doubled and `2d` or `2d-9` when doubled |
| `Schemas.LuhnTotal` | equity-loan-portal/src/validation/schemas.ts:11-20 | The checksum total of an n-digit string lies in 0..9n |
| `Schemas.LuhnTotalUpdate` | equity-loan-portal/src/validation/schemas.ts:15-20 | Replacing one digit changes the total by exactly the difference of the old and new digit's contributions at that position |
| `Schemas.ContributionInjective` | equity-loan-portal/src/validation/schemas.ts:16-18 | Two different digits at the same position (doubled or not) contribute different amounts |
| `Schemas.SingleDigitChangeRejected` | equity-loan-portal/src/validation/schemas.ts:9-21 | Changing any one digit of an accepted ID to a different digit makes the ID rejected |
| `Schemas.LuhnTotalOfEight` | equity-loan-portal/src/validation/schemas.ts:15-20 | For an 8-digit ID the first, third, fifth and seventh digits are doubled and the other four counted as they are |
| `Schemas.ExampleIdAccepted` | equity-loan-portal/src/validation/schemas.ts:5-22 | "12345674" is accepted: its contributions add up to 30 |
| `Schemas.ExamplePlaceholderRejected` | equity-loan-portal/src/validation/schemas.ts:5-22 | The form's placeholder "12345678" is rejected |
| `Schemas.MatchPhone` | equity-loan-portal/src/validation/schemas.ts:26 | The pattern matches iff the input is one of the prefixes "254", "+254", "0" or nothing, followed by `7` and 8 more digits; on a match, prefix plus captured subscriber number is the input |
| `Schemas.PhoneSplitUnique` | equity-loan-portal/src/validation/schemas.ts:26 | An input matches with at most one prefix |
| `Schemas.SpellingsMatch` | equity-loan-portal/src/validation/schemas.ts:26 | Each of the four spellings of a subscriber number matches, with the prefix it was written with |
| `Schemas.NormalizePhone` | equity-loan-portal/src/validation/schemas.ts:27-33 | The transformed number always starts with "+" |
| `Schemas.NormalizeAccepted` | equity-loan-portal/src/validation/schemas.ts:27-33 | An accepted number with prefix "0", "254" or "+254" normalises to "+254" plus the subscriber number; a bare subscriber number normalises to "+" plus itself |
| `Schemas.NormalizeIdempotent` | equity-loan-portal/src/validation/schemas.ts:27-33 | Normalising an already normalised number returns it unchanged |
| `Schemas.NormalizedReparses` | equity-loan-portal/src/validation/schemas.ts:25-33 | A prefixed number normalises to a string the pattern accepts again as "+254" plus the same subscriber; a bare one normalises to a string the pattern rejects |
| `Schemas.SpellingsNormalize` | equity-loan-portal/src/validation/schemas.ts:27-33 | For a subscriber number n, the spellings "0"+n, "254"+n and "+254"+n all normalise to "+254"+n, while n alone normalises to "+"+n |
| `Schemas.BareSpellingRejected` | equity-loan-portal/src/validation/schemas.ts:25-33 | Every bare subscriber number n (such as "712345678") is accepted, normalises to "+"+n, and "+"+n is rejected by the same pattern |
| `Schemas.AmountAccepted` | equity-loan-portal/src/validation/schemas.ts:53-56 | An amount is accepted iff it lies in 5000..5000000 and is a multiple of 100 (`AmountGrid` restates it as 100·k for k in 50..50000) |
| `Schemas.TenureAccepted` | equity-loan-portal/src/validation/schemas.ts:57-59 | A tenure is accepted iff it lies in 3..60 months |
| `Schemas.AmountBoundaries` | equity-loan-portal/src/validation/schemas.ts:53-56 | 5000 and 5000000 are accepted; 4900, 5050 and 5000001 are rejected |
| `Schemas.AmountGrid` | equity-loan-portal/src/validation/schemas.ts:53-56 | An amount is accepted iff it is 100·k for a whole k in 50..50000 |
| `Schemas.PurposeAccepted` | equity-loan-portal/src/validation/schemas.ts:60-67 | A purpose is accepted if it is in the upper-case enumeration or, by the second alternative, any string at all |
| `Schemas.PurposeAcceptsAnyString` | equity-loan-portal/src/validation/schemas.ts:60-67 | Every purpose string is accepted, including "" and the form's "business", which is not in the enumeration |
| `Schemas.MonthlyIncomeAccepted` | equity-loan-portal/src/validation/schemas.ts:73 | A monthly income is accepted iff it is at least 0 |
| `Schemas.FullNameAccepted` | equity-loan-portal/src/validation/schemas.ts:38 | A full name is accepted iff it has at least 3 characters, each an ASCII letter or a JavaScript whitespace character |
| `Schemas.FullNameJoin` | equity-loan-portal/src/validation/schemas.ts:38 | Two accepted names joined by a space are accepted, and appending letters to an accepted name keeps it accepted |
| `Schemas.DateOfBirthAccepted` | equity-loan-portal/src/validation/schemas.ts:42-47 | A date of birth is accepted iff it parses and the current year minus its year lies in 18..65 |
| `Schemas.AgeWindow` | equity-loan-portal/src/validation/schemas.ts:42-47 | A parsed date is accepted iff its year lies between 65 and 18 years before the current year, both included |
| `Schemas.UnparsableDateRejected` | equity-loan-portal/src/validation/schemas.ts:42-44 | A date string that does not parse is rejected |
| `Schemas.ExampleNames` | equity-loan-portal/src/validation/schemas.ts:38 | Three spaces and "John Kamau" are accepted full names; "Jo" and "J0hn" are not |
| `Schemas.ParsePhone` | equity-loan-portal/src/validation/schemas.ts:25-33 | The phone field parses iff the pattern matches, and the parsed value is the normalised number, which starts with "+" |
| `Schemas.ParsePersonal` | equity-loan-portal/src/validation/schemas.ts:37-51 | The personal section parses iff the full-name, ID, age-by-year, phone and e-mail rules all pass; the parsed value is the input with the phone number replaced by its normalised form |
| `Schemas.ParseLoan` | equity-loan-portal/src/validation/schemas.ts:52-69 | The loan section parses iff amount and tenure rules pass (the purpose never blocks it), and is returned unchanged |
| `Schemas.ParseEmployment` | equity-loan-portal/src/validation/schemas.ts:70-80 | The employment section parses iff monthly income is at least 0, and is returned unchanged |
| `Schemas.ParseApplication` | equity-loan-portal/src/validation/schemas.ts:36-81 | The whole form parses iff all three sections parse; the personal part is the parsed personal section (phone normalised), and loan and employment come back unchanged |
| `Store.MergeFullPatches` | equity-loan-portal/src/store/loanStore.ts:84-97 | Merging a patch that carries every key of a section yields that section, whatever was stored before |
| `Store.MergeSlotPatch` | equity-loan-portal/src/store/loanStore.ts:99-102 | A one-key document patch sets that slot and leaves every other slot as it was |
| `Store.MergeIdempotent` | equity-loan-portal/src/store/loanStore.ts:84-102 | Merging the same patch twice into a section gives the same section as merging it once |
| `Store.UpdateTwiceIsOnce` | equity-loan-portal/src/store/loanStore.ts:84-102 | Applying the same update action twice gives the state of applying it once at the later time |
| `Store.ClearedIsInitial` | equity-loan-portal/src/store/loanStore.ts:104-132 | A reset state is the initial state with the fresh id and the old createdAt and sessionId: step 1, amount 50000, tenure 12, empty strings, zeros, false, no documents |
| `Store.Partialize` | equity-loan-portal/src/store/loanStore.ts:137-146 | The persisted record carries the step, the application id and the session id of the state |
| `Store.PartializeIgnoresDocuments` | equity-loan-portal/src/store/loanStore.ts:137-146 | The persisted record does not depend on the documents; a document update persists only as a new modification time |
| `Store.PartializeDeterminesAllButDocuments` | equity-loan-portal/src/store/loanStore.ts:137-146 | Two states with the same persisted record differ at most in their documents |
| `Store.RehydrateRestoresAllButDocuments` | equity-loan-portal/src/store/loanStore.ts:137-153 | Persisting a state and loading the record into a newly created store gives back the state except the documents, which come back empty, and persists the same record again |
| `Store.PersonalFilledIff` | equity-loan-portal/src/store/loanStore.ts:166-168 | No personal value is `''` or `false` iff every personal string is non-empty and `existingCustomer` is true |
| `Store.CountPresent` | equity-loan-portal/src/store/loanStore.ts:175 | The number of non-null slots lies between 0 and the number of slots, equals it iff every slot holds a file, and is 0 iff none does |
| `Store.NoDocumentsIff` | equity-loan-portal/src/store/loanStore.ts:175 | No document is counted iff the documents are the initial all-null record |
| `Store.ApplicationSummary` | equity-loan-portal/src/store/loanStore.ts:159-177 | Total steps 5; percentage is 20·step; personal complete iff all strings non-empty and existing customer; loan complete iff amount > 0, tenure > 0 and purpose non-empty; employment complete iff income > 15000 and employer and job title non-empty; 0..5 documents, 0 iff none; minutes elapsed rounded down |
| `Store.SummaryAfterClear` | equity-loan-portal/src/store/loanStore.ts:159-177 | Right after a reset the summary shows 20 percent, no section complete and no documents |
| `Store.LoanStore.constructor` | equity-loan-portal/src/store/loanStore.ts:45-76 | A new store has step 1, the default sections, no documents, and createdAt = lastModified = now |
| `Store.LoanStore.SetStep` | equity-loan-portal/src/store/loanStore.ts:79-82 | The step becomes exactly the given value, with no range check; only lastModified also changes |
| `Store.LoanStore.UpdatePersonalDetails` | equity-loan-portal/src/store/loanStore.ts:84-87 | The personal section becomes the old one with the patch's keys overwritten; everything else but lastModified is unchanged |
| `Store.LoanStore.UpdateLoanDetails` | equity-loan-portal/src/store/loanStore.ts:89-92 | Same for the loan section |
| `Store.LoanStore.UpdateEmploymentDetails` | equity-loan-portal/src/store/loanStore.ts:94-97 | Same for the employment section |
| `Store.LoanStore.UpdateDocuments` | equity-loan-portal/src/store/loanStore.ts:99-102 | Same for the document slots; the persisted record changes only in lastModified |
| `Store.LoanStore.ClearStore` | equity-loan-portal/src/store/loanStore.ts:104-132 | The state is reset to the defaults with the fresh application id; createdAt and sessionId are unchanged |
| `Store.LoanStore.Persisted` | equity-loan-portal/src/store/loanStore.ts:137-146 | Loading what is written to storage back over the current state restores the current state; the record carries its step and ids |
| `LoanForm.StepFields` | equity-loan-portal/src/components/LoanForm.tsx:67-74 | A step validates at most one section, and only the section entered on that step |
| `LoanForm.StepFieldsInverse` | equity-loan-portal/src/components/LoanForm.tsx:67-74 | Step 1 validates the personal section, 2 the loan section, 3 the employment section, and every other step nothing; each section is validated on exactly one step |
| `LoanForm.HandleNext` | equity-loan-portal/src/components/LoanForm.tsx:43-50 | The step becomes step+1 iff every section of the current step validates; otherwise the store is unchanged |
| `LoanForm.HandlePrevious` | equity-loan-portal/src/components/LoanForm.tsx:52-54 | The step becomes step−1, unconditionally |
| `LoanForm.SavedAndSubmitted` | equity-loan-portal/src/components/LoanForm.tsx:56-65 | Saving replaces the three sections by the given ones and keeps the step; submitting does the same and sets the step to 5 |
| `LoanForm.OnSubmit` | equity-loan-portal/src/components/LoanForm.tsx:56-65 | The store ends with the three submitted sections and step 5 |
| `LoanForm.SubmitForm` | equity-loan-portal/src/components/LoanForm.tsx:602 | The submit handler runs iff the whole form parses, and receives the parsed values |
| `LoanForm.SaveProgress` | equity-loan-portal/src/components/LoanForm.tsx:655-663 | When the form parses, the three parsed sections are merged; the step never changes |
| `LoanForm.TenureOptionsAccepted` | equity-loan-portal/src/components/LoanForm.tsx:235 | Every tenure button value (3, 6, 12, 24, 36, 48, 60) passes the tenure rule |
| `LoanForm.SelectTenure` | equity-loan-portal/src/components/LoanForm.tsx:235-243 | A tenure button sets the stored tenure to its value, which the tenure rule accepts, and changes nothing else in the loan section |
| `LoanForm.AfterPressStep` | equity-loan-portal/src/components/LoanForm.tsx:606-669 | The step a click leaves in the store is the step StepAfter names, and a click on a hidden or disabled button leaves the whole store unchanged |
| `LoanForm.Shown` | equity-loan-portal/src/components/LoanForm.tsx:606-669 | Previous is rendered on steps after the first and before the last, Next before step 4, Review on step 4, Submit on step 5, Save Progress before step 5 |
| `LoanForm.ButtonsPerStep` | equity-loan-portal/src/components/LoanForm.tsx:606-669 | On each step 1..5 exactly one forward button is rendered (Next on 1-3, Review on 4, Submit on 5); Previous only on 2-4; Save Progress on 1-4 |
| `LoanForm.Enabled` | equity-loan-portal/src/components/LoanForm.tsx:566-651 | A click acts only on a rendered button; Next also needs the whole form valid (`disabled={!isValid}`), and Submit needs the required terms checkbox ticked |
| `LoanForm.Press` | equity-loan-portal/src/components/LoanForm.tsx:566-669 | The whole new store is AfterPress of the old one: unchanged for a hidden or disabled button, and for Submit while the required terms checkbox is unticked; step−1 for Previous; step+1 for Next and Review when the step's sections validate; the parsed sections merged (plus step 5 for Submit) when the form parses; the step is the one StepAfter names |
| `LoanForm.UntickedTermsBlockSubmit` | equity-loan-portal/src/components/LoanForm.tsx:566-571 | With the required terms checkbox unticked, a Submit click leaves the store and the step unchanged, whatever the form holds |
| `LoanForm.ReviewAlwaysAdvances` | equity-loan-portal/src/components/LoanForm.tsx:633-642 | The Review button at step 4 always moves to step 5, since step 4 validates nothing |
| `LoanForm.ClicksStayInWizard` | equity-loan-portal/src/components/LoanForm.tsx:606-669 | From a step in 1..5, any sequence of clicks leaves the step in 1..5 |
| `LoanForm.WalkThroughWizard` | equity-loan-portal/src/components/LoanForm.tsx:621-642 | With every section valid, three Next clicks and one Review click take step 1 to step 5 |
| `DocumentUpload.DetermineFileType` | equity-loan-portal/src/components/DocumentUpload.tsx:47-57 | Each type is characterised exactly, the keywords tested in order on the lower-cased name: an id side iff "id" or "national"; a payslip iff neither of those but "payslip" or "salary"; proof of residence iff none of those four but "residence" or "utility"; a bank statement iff none of the six keywords |
| `DocumentUpload.IdBackExactly` | equity-loan-portal/src/components/DocumentUpload.tsx:47-53 | A file is classified as the back of an id iff its lower-cased name contains "id" or "national", contains "back", and does not contain "front" |
| `DocumentUpload.ResidenceNamesAreIdFront` | equity-loan-portal/src/components/DocumentUpload.tsx:47-55 | Every name containing "residence" is classified as an id side (the front unless it also says "back") |
| `DocumentUpload.ResidenceOnlyFromUtility` | equity-loan-portal/src/components/DocumentUpload.tsx:47-56 | A name classified as proof of residence contains "utility" and not "residence" |
| `DocumentUpload.ClassificationIgnoresCase` | equity-loan-portal/src/components/DocumentUpload.tsx:47-48 | Names with the same lower-case form get the same type; classifying the lower-cased name gives the same type |
| `DocumentUpload.GetFieldName` | equity-loan-portal/src/components/DocumentUpload.tsx:59-66 | ID front, ID back and payslip go to their own slots; proof of residence and statements have no slot, so no document type is mapped to the residence or statement slot |
| `DocumentUpload.GetTypeLabel` | equity-loan-portal/src/components/DocumentUpload.tsx:139-147 | The labels of the two id sides are exactly those starting with "ID " |
| `DocumentUpload.TypeLabelsDistinct` | equity-loan-portal/src/components/DocumentUpload.tsx:139-147 | Different document types have different labels |
| `DocumentUpload.NewUpload` | equity-loan-portal/src/components/DocumentUpload.tsx:71-80 | A new entry is uploading at progress 0, typed by its file name |
| `DocumentUpload.NewUploads` | equity-loan-portal/src/components/DocumentUpload.tsx:71-80 | One new entry per accepted file, in order |
| `DocumentUpload.TickProgress` | equity-loan-portal/src/components/DocumentUpload.tsx:89 | A tick never takes progress above 90 and never lowers a progress of at most 90 |
| `DocumentUpload.ProgressAfterTicks` | equity-loan-portal/src/components/DocumentUpload.tsx:86-92 | After n ticks from 0 the progress is min(10n, 90) |
| `DocumentUpload.ScanFinished` | equity-loan-portal/src/components/DocumentUpload.tsx:104-113 | A finished entry is at 100 with its scan result, in error iff a virus was reported |
| `DocumentUpload.UpdateWhere` | equity-loan-portal/src/components/DocumentUpload.tsx:87-91 | An update by id changes exactly the entries with that id and keeps the others and the length |
| `DocumentUpload.WithoutId` | equity-loan-portal/src/components/DocumentUpload.tsx:149-151 | The entries kept are exactly those whose id differs |
| `DocumentUpload.WithoutIdAppend` | equity-loan-portal/src/components/DocumentUpload.tsx:150 | Removal keeps the remaining entries in their original order |
| `DocumentUpload.WithoutAbsentId` | equity-loan-portal/src/components/DocumentUpload.tsx:150 | Removing an id no entry has changes nothing |
| `DocumentUpload.WithoutIdCount` | equity-loan-portal/src/components/DocumentUpload.tsx:150 | Removal takes out as many entries as carry the id |
| `DocumentUpload.ScanCountsAddUp` | equity-loan-portal/src/components/DocumentUpload.tsx:341-359 | Safe count plus threat count equals the scanned count |
| `DocumentUpload.TileUploaded` | equity-loan-portal/src/components/DocumentUpload.tsx:212-213 | A requirement tile shows uploaded iff the first entry of that type has finished successfully |
| `DocumentUpload.UploadList.constructor` | equity-loan-portal/src/components/DocumentUpload.tsx:31 | The list starts empty |
| `DocumentUpload.UploadList.AddFiles` | equity-loan-portal/src/components/DocumentUpload.tsx:71-82 | The new uploading entries are appended after the existing ones |
| `DocumentUpload.UploadList.Tick` | equity-loan-portal/src/components/DocumentUpload.tsx:86-92 | Only the entries with that id tick; every entry stays consistent |
| `DocumentUpload.UploadList.BeginScan` | equity-loan-portal/src/components/DocumentUpload.tsx:98-100 | Only the entries with that id become scanning at 95 |
| `DocumentUpload.UploadList.FinishScan` | equity-loan-portal/src/components/DocumentUpload.tsx:104-120 | Only the entries with that id finish; the file goes to its store slot when its type has one, whatever the scan found, and the store is otherwise unchanged |
| `DocumentUpload.UploadList.RemoveFile` | equity-loan-portal/src/components/DocumentUpload.tsx:149-151 | The list becomes the old list without the entries with that id |
| `DocumentUpload.UploadList.ScanSummary` | equity-loan-portal/src/components/DocumentUpload.tsx:341-359 | Safe plus threats equals scanned, which is at most the number of entries |

## Left out

- EMI and total-interest computation (`LoanCalculator.tsx`, `calculateEMI` in `LoanForm.tsx`): floating-point `Math.pow`/`Math.round` arithmetic behind a debounce timer.
- The service worker, `App.tsx`, `EquityBranding.tsx`, `ProgressBar.tsx`, `Login.tsx`, `main.tsx`, `utils/performance.ts`, `scripts/find-reacts.js` and the Tailwind configuration: caching, layout, static data and stub authentication.
- Validation error messages and the list of issues the schema library collects: only whether a value is accepted is modelled.
- The e-mail shape check, date-string parsing and the current year: `Schemas.Context` parameters.
- Schemas.CheckKenyanId: the library also runs the checksum on strings that already failed the length or digit checks. The verdict does not depend on it, so the method stops early.
- JavaScript numbers are modelled as integers: non-integer amounts, tenures and incomes, and NaN from an empty numeric input, are not modelled.
- `toLowerCase` beyond ASCII: non-ASCII case mappings (the Kelvin sign becoming "k", for one) are not modelled.
- `min(3)` counts UTF-16 code units; the model counts characters. The full-name verdict is the same, because the letter-and-whitespace rule rejects every character outside the Basic Multilingual Plane.
- Patches are modelled with absent keys only; a key present with the value `undefined`, which the spread would copy, is not modelled.
- JSON serialisation to local storage and the revival of dates on load: timestamps are integers, so loading is the shallow merge `Store.Rehydrated` of the persisted keys over a newly created state.
- Random ids, random scan results, `crypto.randomUUID`, clocks and the upload timers are parameters; the order in which timer callbacks fire is up to the caller.
- The `scanning` banner flag, which a fixed 3-second timer switches off, is not modelled.
- The dropzone's file-type and 5 MB size filter and file previews: library behaviour; the accepted files are an input.
- The form library's field state (the values being edited and its `isValid` flag) is an input, not modelled state; `handleNext` is modelled as if validation completes before the next event.
- DocumentUpload.UploadList.Tick: requires the entries with that id to be still uploading, which the source's timers guarantee (the interval is cleared before scanning starts).
- DocumentUpload.UploadList.BeginScan: requires the entries with that id to be still uploading, which the one-shot timeout guarantees.
- The `console.log` and `alert` calls after submitting and saving (`LoanForm.tsx:62-63`, `LoanForm.tsx:663`): output to the console and the browser only.
- The schema's optional `employerCode` (`schemas.ts:72`): the form never registers the field, so `Schemas.EmploymentDetails` has no such field.

=== FILE: DocumentUpload.dfy ===
/** Document upload: classifying a file by its name, the store slot each
    document type is written to, and the list of uploaded files that the
    upload and scan steps update entry by entry. File ids and scan results,
    which the source draws at random, are handed in by the caller. */
module DocumentUpload {
  import opened Wrappers
  import opened Store

  datatype DocType = IdFront | IdBack | Payslip | Residence | Statement

  // ---------------------------------------------------------------- classification

  function LowerChar(c: char): char {
    if 'A' <= c <= 'Z' then (c as int + 32) as char else c
  }

  function ToLower(s: string): (r: string)
    ensures |r| == |s|
    ensures forall i :: 0 <= i < |s| ==> r[i] == LowerChar(s[i])
  {
    seq(|s|, i requires 0 <= i < |s| => LowerChar(s[i]))
  }

  /** `s.includes(w)` */
  function Contains(s: string, w: string): bool
    decreases |s|
  {
    |w| <= |s| && (s[..|w|] == w || Contains(s[1..], w))
  }

  lemma {:induction false} ContainsAt(s: string, w: string, k: int)
    requires 0 <= k && k + |w| <= |s| && s[k..k + |w|] == w
    ensures Contains(s, w)
    decreases k
  {
    if k > 0 {
      assert s[1..][k - 1..k - 1 + |w|] == s[k..k + |w|];
      ContainsAt(s[1..], w, k - 1);
    }
  }

  /** A string that contains `w` contains every piece of `w`. */
  lemma {:induction false} ContainsPiece(s: string, w: string, i: int, j: int)
    requires 0 <= i <= j <= |w| && Contains(s, w)
    ensures Contains(s, w[i..j])
    decreases |s|
  {
    if s[..|w|] == w {
      assert s[..|w|][i..j] == s[i..j];
      ContainsAt(s, w[i..j], i);
    } else {
      ContainsPiece(s[1..], w, i, j);
      assert Contains(s[1..], w[i..j]);
      ContainsShift(s, w[i..j]);
    }
  }

  /** Whatever the tail of a string contains, the string contains. */
  lemma {:induction false} ContainsShift(s: string, w: string)
    requires |s| > 0 && Contains(s[1..], w)
    ensures Contains(s, w)
  {
  }

  /** The filename heuristic, on the lower-cased name: "id" or "national"
      first (then "front", then "back"), then "payslip" or "salary", then
      "residence" or "utility", and "statement" for the rest. */
  function Classify(lower: string): DocType {
    if Contains(lower, "id") || Contains(lower, "national") then
      if Contains(lower, "front") then IdFront
      else if Contains(lower, "back") then IdBack
      else IdFront
    else if Contains(lower, "payslip") || Contains(lower, "salary") then Payslip
    else if Contains(lower, "residence") || Contains(lower, "utility") then Residence
    else Statement
  }

  /** The type of a dropped file, the keywords tested in order on the
      lower-cased name: an id side when it mentions "id" or "national";
      otherwise a payslip when it mentions "payslip" or "salary"; otherwise
      proof of residence when it mentions "residence" or "utility"; and a
      statement when it mentions none of the keywords. */
  function DetermineFileType(filename: string): (t: DocType)
    ensures var lower := ToLower(filename);
      (t == IdFront || t == IdBack) <==> Contains(lower, "id") || Contains(lower, "national")
    ensures var lower := ToLower(filename);
      t == Payslip <==>
        !Contains(lower, "id") && !Contains(lower, "national")
        && (Contains(lower, "payslip") || Contains(lower, "salary"))
    ensures var lower := ToLower(filename);
      t == Residence <==>
        !Contains(lower, "id") && !Contains(lower, "national") && !Contains(lower, "payslip")
        && !Contains(lower, "salary") && (Contains(lower, "residence") || Contains(lower, "utility"))
    ensures var lower := ToLower(filename);
      t == Statement <==>
        !Contains(lower, "id") && !Contains(lower, "national") && !Contains(lower, "payslip")
        && !Contains(lower, "salary") && !Contains(lower, "residence") && !Contains(lower, "utility")
  {
    Classify(ToLower(filename))
  }

  /** An id document is the back side only when its name says "back" and not
      "front"; every other name mentioning "id" or "national" is the front. */
  lemma IdBackExactly(filename: string)
    ensures var lower := ToLower(filename);
      DetermineFileType(filename) == IdBack <==>
        (Contains(lower, "id") || Contains(lower, "national")) && Contains(lower, "back") && !Contains(lower, "front")
  {
  }

  /** Any name containing "residence" is classified as the front of an id:
      "residence" contains "id", and the id test comes first. */
  lemma ResidenceNamesAreIdFront(filename: string)
    requires Contains(ToLower(filename), "residence")
    ensures DetermineFileType(filename) == IdFront || DetermineFileType(filename) == IdBack
    ensures !Contains(ToLower(filename), "back") ==> DetermineFileType(filename) == IdFront
  {
    var w := "residence";
    ContainsPiece(ToLower(filename), w, 3, 5);
    assert w[3] == 'i' && w[4] == 'd';
    assert w[3..5] == "id";
  }

  /** So no name containing "residence" is ever classified as proof of residence. */
  lemma ResidenceOnlyFromUtility(filename: string)
    requires DetermineFileType(filename) == Residence
    ensures !Contains(ToLower(filename), "residence") && Contains(ToLower(filename), "utility")
  {
    if Contains(ToLower(filename), "residence") {
      ResidenceNamesAreIdFront(filename);
    }
  }

  /** The classification depends only on the lower-cased name. */
  lemma ClassificationIgnoresCase(a: string, b: string)
    requires ToLower(a) == ToLower(b)
    ensures DetermineFileType(a) == DetermineFileType(b)
    ensures DetermineFileType(ToLower(a)) == DetermineFileType(a)
  {
    assert ToLower(ToLower(a)) == ToLower(a);
  }

  /** The store slot a document type is written to; proof of residence and
      bank statements have none. */
  function GetFieldName(t: DocType): (r: Option<DocSlot>)
    ensures r.None? <==> t == Residence || t == Statement
    ensures t == IdFront ==> r == Some(IdFrontSlot)
    ensures t == IdBack ==> r == Some(IdBackSlot)
    ensures t == Payslip ==> r == Some(PayslipSlot)
    ensures r != Some(ResidenceSlot) && r != Some(StatementSlot)
  {
    match t
    case IdFront => Some(IdFrontSlot)
    case IdBack => Some(IdBackSlot)
    case Payslip => Some(PayslipSlot)
    case _ => None
  }

  /** The label shown for a type; the two id sides are the labels starting
      with "ID ". */
  function GetTypeLabel(t: DocType): (r: string)
    ensures |r| >= 3 && ((t == IdFront || t == IdBack) <==> r[..3] == "ID ")
  {
    assert "Payslip"[0] == 'P' && "Proof of Residence"[0] == 'P' && "Bank Statement"[0] == 'B';
    match t
    case IdFront => "ID Front"
    case IdBack => "ID Back"
    case Payslip => "Payslip"
    case Residence => "Proof of Residence"
    case Statement => "Bank Statement"
  }

  /** Different types are shown with different labels. */
  lemma TypeLabelsDistinct(t: DocType, u: DocType)
    requires t != u
    ensures GetTypeLabel(t) != GetTypeLabel(u)
  {
    assert GetTypeLabel(t)[0] != GetTypeLabel(u)[0] || GetTypeLabel(t)[3] != GetTypeLabel(u)[3]
        || |GetTypeLabel(t)| != |GetTypeLabel(u)|;
  }

  // ---------------------------------------------------------------- uploaded files

  datatype Status = Uploading | Scanning | Success | Error

  datatype ScanResult = ScanResult(virus: bool, tampered: bool, ocrConfidence: real)

  datatype UploadedFile = UploadedFile(
    id: string,
    file: FileRef,
    docType: DocType,
    status: Status,
    progress: int,
    scanResult: Option<ScanResult>)

  /** The phases an entry goes through: uploading with progress at most 90,
      scanning at 95, and finished at 100 with a scan result, in error exactly
      when the scan found a virus. */
  predicate Consistent(f: UploadedFile) {
    match f.status
    case Uploading => 0 <= f.progress <= 90 && f.scanResult.None?
    case Scanning => f.progress == 95 && f.scanResult.None?
    case Success => f.progress == 100 && f.scanResult.Some? && !f.scanResult.value.virus
    case Error => f.progress == 100 && f.scanResult.Some? && f.scanResult.value.virus
  }

  /** The entry for a dropped file: classified by name, uploading, at 0. */
  function NewUpload(id: string, file: FileRef): (f: UploadedFile)
    ensures Consistent(f) && f.status == Uploading && f.progress == 0
    ensures f.docType == DetermineFileType(file.name)
  {
    UploadedFile(id, file, DetermineFileType(file.name), Uploading, 0, None)
  }

  function NewUploads(ids: seq<string>, files: seq<FileRef>): (r: seq<UploadedFile>)
    requires |ids| == |files|
    ensures |r| == |files|
    ensures forall i :: 0 <= i < |r| ==> r[i] == NewUpload(ids[i], files[i])
  {
    if files == [] then []
    else [NewUpload(ids[0], files[0])] + NewUploads(ids[1..], files[1..])
  }

  /** `Math.min(progress + 10, 90)` */
  function TickProgress(progress: int): (p: int)
    ensures p <= 90 && (progress <= 90 ==> progress <= p)
  {
    if progress + 10 < 90 then progress + 10 else 90
  }

  /** One progress tick of an entry. */
  function Ticked(f: UploadedFile): UploadedFile {
    f.(progress := TickProgress(f.progress))
  }

  function ScanStarted(f: UploadedFile): UploadedFile {
    f.(status := Scanning, progress := 95)
  }

  function ScanFinished(f: UploadedFile, result: ScanResult): (g: UploadedFile)
    ensures Consistent(g)
    ensures g.status == Error <==> result.virus
  {
    f.(status := if result.virus then Error else Success, progress := 100, scanResult := Some(result))
  }

  /** Progress after `n` ticks from 0: ten per tick, capped at 90. */
  function ProgressAfter(n: nat): int {
    if n == 0 then 0 else TickProgress(ProgressAfter(n - 1))
  }

  /** Ticking from 0 reaches 10 * n until it stops at 90. */
  lemma {:induction false} ProgressAfterTicks(n: nat)
    ensures ProgressAfter(n) == if 10 * n < 90 then 10 * n else 90
  {
    if n > 0 {
      ProgressAfterTicks(n - 1);
    }
  }

  /** `files.map(f => f.id === id ? op(f) : f)` */
  function UpdateWhere(files: seq<UploadedFile>, id: string, op: UploadedFile -> UploadedFile): (r: seq<UploadedFile>)
    ensures |r| == |files|
    ensures forall i :: 0 <= i < |files| ==> r[i] == if files[i].id == id then op(files[i]) else files[i]
  {
    seq(|files|, i requires 0 <= i < |files| => if files[i].id == id then op(files[i]) else files[i])
  }

  /** `files.filter(f => f.id !== id)` */
  function WithoutId(files: seq<UploadedFile>, id: string): (r: seq<UploadedFile>)
    ensures |r| <= |files|
    ensures forall f :: f in r <==> f in files && f.id != id
  {
    if files == [] then []
    else if files[0].id == id then WithoutId(files[1..], id)
    else [files[0]] + WithoutId(files[1..], id)
  }

  /** Removal keeps the order of what remains: removing from a concatenation
      is concatenating the removals. */
  lemma {:induction false} WithoutIdAppend(a: seq<UploadedFile>, b: seq<UploadedFile>, id: string)
    ensures WithoutId(a + b, id) == WithoutId(a, id) + WithoutId(b, id)
  {
    if a == [] {
      assert a + b == b;
    } else {
      assert (a + b)[1..] == a[1..] + b;
      WithoutIdAppend(a[1..], b, id);
    }
  }

  /** Removing an id no entry has changes nothing. */
  lemma {:induction false} WithoutAbsentId(files: seq<UploadedFile>, id: string)
    requires forall i :: 0 <= i < |files| ==> files[i].id != id
    ensures WithoutId(files, id) == files
  {
    if files != [] {
      WithoutAbsentId(files[1..], id);
    }
  }

  /** The entries satisfying `p`, counted. */
  function CountWhere(files: seq<UploadedFile>, p: UploadedFile -> bool): (n: int)
    ensures 0 <= n <= |files|
  {
    if files == [] then 0 else (if p(files[0]) then 1 else 0) + CountWhere(files[1..], p)
  }

  predicate IsScanned(f: UploadedFile) { f.scanResult.Some? }
  predicate IsSafe(f: UploadedFile) { f.scanResult.Some? && !f.scanResult.value.virus }
  predicate IsThreat(f: UploadedFile) { f.scanResult.Some? && f.scanResult.value.virus }

  /** The scan summary's counts: safe plus threats is the number scanned. */
  lemma {:induction false} ScanCountsAddUp(files: seq<UploadedFile>)
    ensures CountWhere(files, IsSafe) + CountWhere(files, IsThreat) == CountWhere(files, IsScanned)
  {
    if files != [] {
      ScanCountsAddUp(files[1..]);
    }
  }

  /** The number of entries removal takes out is the number with that id. */
  lemma {:induction false} WithoutIdCount(files: seq<UploadedFile>, id: string)
    ensures |WithoutId(files, id)| + CountWhere(files, (f: UploadedFile) => f.id == id) == |files|
  {
    if files != [] {
      WithoutIdCount(files[1..], id);
    }
  }

  /** A document-requirement tile shows "uploaded" when the first entry of its
      type has finished without a threat. */
  function TileUploaded(files: seq<UploadedFile>, t: DocType): (r: bool)
    ensures r <==> exists i :: 0 <= i < |files| && files[i].docType == t && files[i].status == Success
                              && forall j :: 0 <= j < i ==> files[j].docType != t
  {
    if files == [] then false
    else if files[0].docType == t then files[0].status == Success
    else TileUploaded(files[1..], t)
  }

  // ---------------------------------------------------------------- the list object

  class UploadList {
    var files: seq<UploadedFile>

    ghost predicate Valid()
      reads this
    {
      forall i :: 0 <= i < |files| ==> Consistent(files[i])
    }

    constructor ()
      ensures files == [] && Valid()
    {
      files := [];
    }

    /** The drop handler's first step: one new uploading entry per accepted
        file, appended after the existing ones. */
    method AddFiles(ids: seq<string>, accepted: seq<FileRef>) returns (added: seq<UploadedFile>)
      requires Valid() && |ids| == |accepted|
      modifies this
      ensures Valid()
      ensures added == NewUploads(ids, accepted)
      ensures files == old(files) + added
    {
      added := NewUploads(ids, accepted);
      files := files + added;
    }

    /** A progress tick for the entry `id`; the interval is cleared before
        scanning starts, so the entries with that id are still uploading. */
    method Tick(id: string)
      requires Valid()
      requires forall i :: 0 <= i < |files| && files[i].id == id ==> files[i].status == Uploading
      modifies this
      ensures Valid()
      ensures files == UpdateWhere(old(files), id, Ticked)
    {
      files := UpdateWhere(files, id, Ticked);
    }

    /** The upload delay has elapsed: the entry `id` starts scanning. */
    method BeginScan(id: string)
      requires Valid()
      requires forall i :: 0 <= i < |files| && files[i].id == id ==> files[i].status == Uploading
      modifies this
      ensures Valid()
      ensures files == UpdateWhere(old(files), id, ScanStarted)
    {
      files := UpdateWhere(files, id, ScanStarted);
    }

    /** The scan of `upload` reported `result`: its entry finishes, in error
        exactly when a virus was found, and the file is written to its store
        slot when its type has one, whatever the scan found. */
    method FinishScan(upload: UploadedFile, result: ScanResult, store: LoanStore, now: int)
      requires Valid()
      modifies this, store
      ensures Valid()
      ensures files == UpdateWhere(old(files), upload.id, f => ScanFinished(f, result))
      ensures store.State() ==
        match GetFieldName(upload.docType)
        case Some(slot) => DocumentsUpdated(old(store.State()), SlotPatch(slot, Some(upload.file)), now)
        case None => old(store.State())
    {
      files := UpdateWhere(files, upload.id, f => ScanFinished(f, result));
      var fieldName := GetFieldName(upload.docType);
      if fieldName.Some? {
        store.UpdateDocuments(SlotPatch(fieldName.value, Some(upload.file)), now);
      }
    }

    /** Removes every entry with that id and keeps the rest in order. */
    method RemoveFile(id: string)
      requires Valid()
      modifies this
      ensures Valid()
      ensures files == WithoutId(old(files), id)
    {
      files := WithoutId(files, id);
    }

    /** The scan summary: safe, threats and total scanned. */
    function ScanSummary(): (r: (int, int, int))
      reads this
      ensures r.0 + r.1 == r.2 && 0 <= r.2 <= |files|
    {
      ScanCountsAddUp(files);
      (CountWhere(files, IsSafe), CountWhere(files, IsThreat), CountWhere(files, IsScanned))
    }
  }
}

=== FILE: LoanForm.dfy ===
/** The wizard's navigation: which section each step validates, the handlers
    behind the Previous, Next, Review, Submit and Save Progress buttons, the
    conditions under which each button is rendered, and the tenure buttons.
    Whether a section currently validates is an oracle handed in by the
    caller, as is the whole-form parse of the values being edited. */
module LoanForm {
  import opened Wrappers
  import opened Schemas
  import opened Store

  datatype Section = PersonalSection | LoanSection | EmploymentSection

  /** The sections validated before leaving a step. */
  function StepFields(step: int): (r: seq<Section>)
    ensures |r| <= 1
    ensures forall section :: section in r ==> SectionStep(section) == step
  {
    if step == 1 then [PersonalSection]
    else if step == 2 then [LoanSection]
    else if step == 3 then [EmploymentSection]
    else []
  }

  /** The step on which a section is entered. */
  function SectionStep(section: Section): int {
    match section
    case PersonalSection => 1
    case LoanSection => 2
    case EmploymentSection => 3
  }

  /** Each section is validated on exactly the step where it is entered, and
      the steps after the employment step validate nothing. */
  lemma StepFieldsInverse(section: Section, step: int)
    ensures StepFields(SectionStep(section)) == [section]
    ensures section in StepFields(step) <==> step == SectionStep(section)
    ensures StepFields(step) == [] <==> !(1 <= step <= 3)
  {
  }

  /** The outcome of validating the listed sections: all of them must
      validate, so an empty list always passes. */
  predicate StepPasses(step: int, valid: Section -> bool) {
    forall section :: section in StepFields(step) ==> valid(section)
  }

  // ---------------------------------------------------------------- handlers

  /** Advances one step when the current step's sections validate, and
      otherwise leaves the store as it is. */
  method HandleNext(store: LoanStore, valid: Section -> bool, now: int)
    modifies store
    ensures store.State() ==
      if StepPasses(old(store.step), valid) then StepSet(old(store.State()), old(store.step) + 1, now)
      else old(store.State())
  {
    var fields := StepFields(store.step);
    var isValidStep := forall section :: section in fields ==> valid(section);
    if isValidStep {
      store.SetStep(store.step + 1, now);
    }
  }

  /** Goes back one step, unconditionally. */
  method HandlePrevious(store: LoanStore, now: int)
    modifies store
    ensures store.State() == StepSet(old(store.State()), old(store.step) - 1, now)
  {
    store.SetStep(store.step - 1, now);
  }

  /** The store after the three sections of `data` are merged into it. */
  function Saved(s: StoreState, data: Application, now: int): StoreState {
    EmploymentUpdated(
      LoanUpdated(PersonalUpdated(s, FullPersonalPatch(data.personal), now), FullLoanPatch(data.loan), now),
      FullEmploymentPatch(data.employment), now)
  }

  /** The store after a submission: the sections saved and the step set to 5. */
  function Submitted(s: StoreState, data: Application, now: int): StoreState {
    StepSet(Saved(s, data, now), 5, now)
  }

  /** Saving replaces the three sections by the submitted ones and leaves the
      step, the documents and the identifiers alone; submitting does the same
      and sets the step to 5. */
  lemma SavedAndSubmitted(s: StoreState, data: Application, now: int)
    ensures Saved(s, data, now) == s.(personalDetails := data.personal, loanDetails := data.loan,
                                      employmentDetails := data.employment, lastModified := now)
    ensures Submitted(s, data, now).step == 5
    ensures Submitted(s, data, now) == Saved(s, data, now).(step := 5)
  {
    MergeFullPatches(data.personal, s.personalDetails, data.loan, s.loanDetails,
                     data.employment, s.employmentDetails);
  }

  /** The submit handler, given the parsed form values. */
  method OnSubmit(store: LoanStore, data: Application, now: int)
    modifies store
    ensures store.State() == Submitted(old(store.State()), data, now)
  {
    store.UpdatePersonalDetails(FullPersonalPatch(data.personal), now);
    store.UpdateLoanDetails(FullLoanPatch(data.loan), now);
    store.UpdateEmploymentDetails(FullEmploymentPatch(data.employment), now);
    store.SetStep(5, now);
  }

  /** The form's submit: the handler runs only on values the whole schema
      accepts, and receives the parsed (phone-normalised) values. */
  method SubmitForm(store: LoanStore, form: Application, ctx: Context, now: int)
    modifies store
    ensures store.State() ==
      match ParseApplication(form, ctx)
      case Some(data) => Submitted(old(store.State()), data, now)
      case None => old(store.State())
  {
    match ParseApplication(form, ctx)
    case Some(data) =>
      OnSubmit(store, data, now);
    case None =>
  }

  /** The Save Progress button: the same merge as a submission, but the step
      stays where it is. */
  method SaveProgress(store: LoanStore, form: Application, ctx: Context, now: int)
    modifies store
    ensures store.State() ==
      match ParseApplication(form, ctx)
      case Some(data) => Saved(old(store.State()), data, now)
      case None => old(store.State())
    ensures store.step == old(store.step)
  {
    match ParseApplication(form, ctx)
    case Some(data) =>
      store.UpdatePersonalDetails(FullPersonalPatch(data.personal), now);
      store.UpdateLoanDetails(FullLoanPatch(data.loan), now);
      store.UpdateEmploymentDetails(FullEmploymentPatch(data.employment), now);
    case None =>
  }

  // ---------------------------------------------------------------- tenure buttons

  const TenureOptions: seq<int> := [3, 6, 12, 24, 36, 48, 60]

  /** Every tenure button offers a tenure the tenure rule accepts. */
  lemma TenureOptionsAccepted()
    ensures forall i :: 0 <= i < |TenureOptions| ==> TenureAccepted(TenureOptions[i])
  {
  }

  /** A click on the tenure button at `index`: the store's tenure becomes that
      option, and nothing else in the loan section changes. */
  method SelectTenure(store: LoanStore, index: int, now: int)
    requires 0 <= index < |TenureOptions|
    modifies store
    ensures store.State() == LoanUpdated(old(store.State()), LoanPatch(None, Some(TenureOptions[index]), None, None), now)
    ensures TenureAccepted(store.loanDetails.tenure)
  {
    var months := TenureOptions[index];
    store.UpdateLoanDetails(LoanPatch(None, Some(months), None, None), now);
  }

  // ---------------------------------------------------------------- buttons

  datatype Control = PreviousButton | NextButton | ReviewButton | SubmitButton | SaveButton

  /** Whether the button is rendered at `step`. */
  predicate Shown(step: int, control: Control) {
    match control
    case PreviousButton => step > 1 && step < 5
    case NextButton => step < 4
    case ReviewButton => step == 4
    case SubmitButton => step == 5
    case SaveButton => step < 5
  }

  /** On every step of the wizard exactly one forward button is rendered:
      Next on steps 1 to 3, Review on step 4 and Submit on step 5; Previous
      only on steps 2 to 4 and Save Progress on every step before the last. */
  lemma ButtonsPerStep(step: int)
    requires 1 <= step <= 5
    ensures Shown(step, NextButton) <==> step <= 3
    ensures Shown(step, ReviewButton) <==> step == 4
    ensures Shown(step, SubmitButton) <==> step == 5
    ensures Shown(step, PreviousButton) <==> 2 <= step <= 4
    ensures Shown(step, SaveButton) <==> step <= 4
  {
  }

  /** A click: the button, whether the form as a whole is currently valid
      (the Next button is disabled otherwise), whether the required terms
      checkbox of the review step is ticked (the browser cancels the form's
      submit event otherwise), the validity oracle for the step's sections,
      and whether the whole-form parse succeeds. */
  datatype Click = Click(control: Control, formValid: bool, termsAccepted: bool, valid: Section -> bool,
                         formParses: bool)

  predicate Enabled(step: int, click: Click) {
    Shown(step, click.control)
    && (click.control == NextButton ==> click.formValid)
    && (click.control == SubmitButton ==> click.termsAccepted)
  }

  /** The step after a click; a click on a button that is not rendered or is
      disabled does nothing. */
  function StepAfter(step: int, click: Click): int {
    if !Enabled(step, click) then step
    else
      match click.control
      case PreviousButton => step - 1
      case NextButton => if StepPasses(step, click.valid) then step + 1 else step
      case ReviewButton => if StepPasses(step, click.valid) then step + 1 else step
      case SubmitButton => if click.formParses then 5 else step
      case SaveButton => step
  }

  function StepsAfter(step: int, clicks: seq<Click>): int
    decreases |clicks|
  {
    if clicks == [] then step else StepsAfter(StepAfter(step, clicks[0]), clicks[1..])
  }

  /** The store after a click, given the whole-form parse: a button that is
      not rendered or is disabled changes nothing; Previous and Next/Review set
      the step as their handlers do; Submit and Save Progress merge the parsed
      sections, Submit also moving to step 5, and do nothing when the form
      does not parse. */
  function AfterPress(s: StoreState, click: Click, parsed: Option<Application>, now: int): StoreState {
    if !Enabled(s.step, click) then s
    else
      match click.control
      case PreviousButton => StepSet(s, s.step - 1, now)
      case NextButton => if StepPasses(s.step, click.valid) then StepSet(s, s.step + 1, now) else s
      case ReviewButton => if StepPasses(s.step, click.valid) then StepSet(s, s.step + 1, now) else s
      case SubmitButton =>
        (match parsed
         case Some(data) => Submitted(s, data, now)
         case None => s)
      case SaveButton =>
        (match parsed
         case Some(data) => Saved(s, data, now)
         case None => s)
  }

  /** The step a click leaves in the store is the one StepAfter names, so the
      lemmas about StepAfter apply to the store; a hidden or disabled button
      leaves the whole store as it was. */
  lemma AfterPressStep(s: StoreState, click: Click, parsed: Option<Application>, now: int)
    requires click.formParses == parsed.Some?
    ensures AfterPress(s, click, parsed, now).step == StepAfter(s.step, click)
    ensures !Enabled(s.step, click) ==> AfterPress(s, click, parsed, now) == s
  {
    if Enabled(s.step, click) && parsed.Some? {
      SavedAndSubmitted(s, parsed.value, now);
    }
  }

  /** With the terms checkbox unticked, the Submit button changes nothing,
      whatever the form holds. */
  lemma UntickedTermsBlockSubmit(s: StoreState, click: Click, parsed: Option<Application>, now: int)
    requires click.control == SubmitButton && !click.termsAccepted
    ensures AfterPress(s, click, parsed, now) == s
    ensures StepAfter(s.step, click) == s.step
  {
  }

  /** The button behind a click runs its handler when it is rendered and
      enabled, and otherwise nothing happens. */
  method Press(store: LoanStore, control: Control, formValid: bool, termsAccepted: bool,
               valid: Section -> bool, form: Application, ctx: Context, now: int)
    modifies store
    ensures store.State() ==
      AfterPress(old(store.State()), Click(control, formValid, termsAccepted, valid, ParseApplication(form, ctx).Some?),
                 ParseApplication(form, ctx), now)
    ensures store.step == StepAfter(old(store.step), Click(control, formValid, termsAccepted, valid, ParseApplication(form, ctx).Some?))
  {
    var click := Click(control, formValid, termsAccepted, valid, ParseApplication(form, ctx).Some?);
    ghost var before := store.State();
    AfterPressStep(before, click, ParseApplication(form, ctx), now);
    if Enabled(store.step, click) {
      match control
      case PreviousButton =>
        HandlePrevious(store, now);
      case NextButton =>
        HandleNext(store, valid, now);
      case ReviewButton =>
        HandleNext(store, valid, now);
      case SubmitButton =>
        SubmitForm(store, form, ctx, now);
      case SaveButton =>
        SaveProgress(store, form, ctx, now);
    }
  }

  /** The Review button always advances from step 4: step 4 validates no section. */
  lemma ReviewAlwaysAdvances(click: Click)
    requires click.control == ReviewButton
    ensures StepAfter(4, click) == 5
  {
  }

  /** From a step in 1..5, no sequence of clicks on the buttons leaves 1..5. */
  lemma {:induction false} ClicksStayInWizard(step: int, clicks: seq<Click>)
    requires 1 <= step <= 5
    ensures 1 <= StepsAfter(step, clicks) <= 5
    decreases |clicks|
  {
    if clicks != [] {
      ClicksStayInWizard(StepAfter(step, clicks[0]), clicks[1..]);
    }
  }

  /** With every section valid, Next three times and Review once walk the
      wizard from step 1 to the review step. */
  lemma WalkThroughWizard(valid: Section -> bool, clicks: seq<Click>)
    requires forall section :: valid(section)
    requires |clicks| == 4
    requires forall i :: 0 <= i < 3 ==> clicks[i] == Click(NextButton, true, false, valid, false)
    requires clicks[3] == Click(ReviewButton, true, false, valid, false)
    ensures StepsAfter(1, clicks) == 5
  {
    assert StepAfter(1, clicks[0]) == 2;
    assert StepAfter(2, clicks[1]) == 3;
    assert StepAfter(3, clicks[2]) == 4;
    assert StepAfter(4, clicks[3]) == 5;
    var rest := clicks[3..];
    assert rest[0] == clicks[3] && rest[1..] == [];
    assert StepsAfter(4, rest) == 5;
    assert clicks[2..][0] == clicks[2] && clicks[2..][1..] == rest;
    assert StepsAfter(3, clicks[2..]) == 5;
    assert clicks[1..][0] == clicks[1] && clicks[1..][1..] == clicks[2..];
    assert StepsAfter(2, clicks[1..]) == 5;
  }
}

=== FILE: Schemas.dfy ===
/** The field rules of the loan application: the Kenyan national-ID format and
    checksum, the Kenyan mobile-number pattern with its normalising transform,
    and the rules of the personal, loan and employment sections. Each rule is
    modelled by whether it accepts a value; the error messages are not. */
module Schemas {
  import opened Wrappers

  // ---------------------------------------------------------------- characters

  /** `\d` of a JavaScript regular expression without the `u` flag. */
  predicate IsDigit(c: char) {
    '0' <= c <= '9'
  }

  predicate AllDigits(s: string) {
    forall i :: 0 <= i < |s| ==> IsDigit(s[i])
  }

  function DigitValue(c: char): (d: int)
    requires IsDigit(c)
    ensures 0 <= d <= 9
  {
    c as int - '0' as int
  }

  // ---------------------------------------------------------------- national ID

  /** What one digit adds to the checksum: the digit itself, or, when it is
      doubled, the sum of the decimal digits of its double. */
  function Contribution(d: int, doubled: bool): (c: int)
    requires 0 <= d <= 9
    ensures 0 <= c <= 9
    ensures !doubled ==> c == d
    ensures doubled ==> c == if d < 5 then 2 * d else 2 * d - 9
  {
    var v := if doubled then d * 2 else d;
    assert v < 10 ==> v / 10 == 0 && v % 10 == v;
    assert 10 <= v ==> v / 10 == 1 && v % 10 == v - 10;
    v / 10 + v % 10
  }

  /** The checksum total of a digit string: a digit is doubled exactly when an
      odd number of digits stand to its right, i.e. every second digit counting
      from the rightmost one. */
  function LuhnTotal(id: string): (t: int)
    requires AllDigits(id)
    ensures 0 <= t <= 9 * |id|
  {
    if id == [] then 0
    else Contribution(DigitValue(id[0]), (|id| - 1) % 2 == 1) + LuhnTotal(id[1..])
  }

  /** `^\d+$`: at least one character, and all of them digits. */
  predicate DigitsOnly(s: string) {
    |s| > 0 && AllDigits(s)
  }

  /** The national-ID rule: 7 or 8 characters, digits only, checksum total a
      multiple of 10. */
  predicate KenyanIdAccepted(id: string) {
    7 <= |id| <= 8 && DigitsOnly(id) && LuhnTotal(id) % 10 == 0
  }

  /** The national-ID check as the source runs it: the length and pattern
      checks, then the checksum loop over the digits from the rightmost one,
      toggling whether the next digit is doubled. */
  method CheckKenyanId(id: string) returns (ok: bool)
    ensures ok == KenyanIdAccepted(id)
  {
    if !(7 <= |id| <= 8) || !DigitsOnly(id) {
      return false;
    }
    var sum := 0;
    var isSecond := false;
    var i := |id| - 1;
    while i >= 0
      invariant -1 <= i < |id|
      invariant isSecond == ((|id| - 1 - i) % 2 == 1)
      invariant AllDigits(id[i + 1..]) && sum == LuhnTotal(id[i + 1..])
    {
      LuhnTotalStep(id, i);
      var digit := DigitValue(id[i]);
      if isSecond {
        digit := digit * 2;
      }
      sum := sum + digit / 10 + digit % 10;
      isSecond := !isSecond;
      i := i - 1;
    }
    assert id[0..] == id;
    ok := sum % 10 == 0;
  }

  /** The total of a suffix is its first digit's contribution plus the total
      of the rest. */
  lemma LuhnTotalStep(id: string, i: int)
    requires AllDigits(id) && 0 <= i < |id|
    ensures AllDigits(id[i..]) && AllDigits(id[i + 1..])
    ensures LuhnTotal(id[i..]) == Contribution(DigitValue(id[i]), (|id| - 1 - i) % 2 == 1) + LuhnTotal(id[i + 1..])
  {
    var t := id[i..];
    assert t[0] == id[i] && t[1..] == id[i + 1..] && |t| - 1 == |id| - 1 - i;
  }

  /** Replacing the digit at `i` changes the total by exactly the difference of
      the two digits' contributions at that position. */
  lemma {:induction false} LuhnTotalUpdate(id: string, i: int, c: char)
    requires AllDigits(id) && 0 <= i < |id| && IsDigit(c)
    ensures AllDigits(id[i := c])
    ensures LuhnTotal(id[i := c])
         == LuhnTotal(id)
            - Contribution(DigitValue(id[i]), (|id| - 1 - i) % 2 == 1)
            + Contribution(DigitValue(c), (|id| - 1 - i) % 2 == 1)
  {
    var changed := id[i := c];
    assert changed[0] == (if i == 0 then c else id[0]);
    if i == 0 {
      assert changed[1..] == id[1..];
    } else {
      var rest := id[1..];
      assert AllDigits(rest);
      LuhnTotalUpdate(rest, i - 1, c);
      assert |rest| - 1 - (i - 1) == |id| - 1 - i;
      assert changed[1..] == rest[i - 1 := c];
    }
  }

  /** Two different digits never contribute the same amount at one position. */
  lemma ContributionInjective(d: int, e: int, doubled: bool)
    requires 0 <= d <= 9 && 0 <= e <= 9 && d != e
    ensures Contribution(d, doubled) != Contribution(e, doubled)
  {
    if doubled && d < 5 && 5 <= e {
      assert Contribution(d, doubled) % 2 == 0 && Contribution(e, doubled) % 2 == 1;
    } else if doubled && 5 <= d && e < 5 {
      assert Contribution(d, doubled) % 2 == 1 && Contribution(e, doubled) % 2 == 0;
    }
  }

  /** Changing any single digit of an accepted ID to another digit makes the
      checksum reject it. */
  lemma SingleDigitChangeRejected(id: string, i: int, c: char)
    requires KenyanIdAccepted(id) && 0 <= i < |id| && IsDigit(c) && c != id[i]
    ensures !KenyanIdAccepted(id[i := c])
  {
    var doubled := (|id| - 1 - i) % 2 == 1;
    LuhnTotalUpdate(id, i, c);
    ContributionInjective(DigitValue(id[i]), DigitValue(c), doubled);
    ShiftBreaksMultiple(LuhnTotal(id), Contribution(DigitValue(id[i]), doubled), Contribution(DigitValue(c), doubled));
  }

  /** Replacing one summand in 0..9 by a different one moves a multiple of 10
      off the multiples of 10. */
  lemma ShiftBreaksMultiple(t: int, a: int, b: int)
    requires t % 10 == 0 && 0 <= a <= 9 && 0 <= b <= 9 && a != b
    ensures (t - a + b) % 10 != 0
  {
    var k := t / 10;
    assert t - a + b == 10 * k + (b - a);
  }

  /** The checksum total of an eight-digit ID, written out digit by digit:
      the first, third, fifth and seventh digits are doubled. */
  lemma LuhnTotalOfEight(id: string)
    requires |id| == 8 && AllDigits(id)
    ensures LuhnTotal(id)
         == Contribution(DigitValue(id[0]), true) + Contribution(DigitValue(id[1]), false)
          + Contribution(DigitValue(id[2]), true) + Contribution(DigitValue(id[3]), false)
          + Contribution(DigitValue(id[4]), true) + Contribution(DigitValue(id[5]), false)
          + Contribution(DigitValue(id[6]), true) + Contribution(DigitValue(id[7]), false)
  {
    LuhnTotalStep(id, 7);
    LuhnTotalStep(id, 6);
    LuhnTotalStep(id, 5);
    LuhnTotalStep(id, 4);
    LuhnTotalStep(id, 3);
    LuhnTotalStep(id, 2);
    LuhnTotalStep(id, 1);
    LuhnTotalStep(id, 0);
    assert id[8..] == [] && id[0..] == id;
  }

  /** The ID "12345674" passes the checksum: its digits contribute
      2 + 2 + 6 + 4 + 1 + 6 + 5 + 4 = 30. */
  lemma ExampleIdAccepted()
    ensures KenyanIdAccepted("12345674")
  {
    var id := "12345674";
    assert id[0] == '1' && id[1] == '2' && id[2] == '3' && id[3] == '4';
    assert id[4] == '5' && id[5] == '6' && id[6] == '7' && id[7] == '4';
    assert AllDigits(id);
    LuhnTotalOfEight(id);
    assert DigitValue(id[0]) == 1 && DigitValue(id[1]) == 2 && DigitValue(id[2]) == 3 && DigitValue(id[3]) == 4;
    assert DigitValue(id[4]) == 5 && DigitValue(id[5]) == 6 && DigitValue(id[6]) == 7 && DigitValue(id[7]) == 4;
    assert LuhnTotal(id) == 2 + 2 + 6 + 4 + 1 + 6 + 5 + 4;
  }

  /** The form's placeholder "12345678" fails the checksum: it differs from
      "12345674" in its last digit only. */
  lemma ExamplePlaceholderRejected()
    ensures !KenyanIdAccepted("12345678")
  {
    ExampleIdAccepted();
    assert "12345674"[7 := '8'] == "12345678";
    SingleDigitChangeRejected("12345674", 7, '8');
  }

  // ---------------------------------------------------------------- mobile number

  /** The captured group `7[0-9]{8}`. */
  predicate IsSubscriber(s: string) {
    |s| == 9 && s[0] == '7' && AllDigits(s)
  }

  /** The alternatives of the optional group `(?:254|\+254|0)?`. */
  datatype PhonePrefix = CountryCode | PlusCountryCode | TrunkZero | NoPrefix

  function PrefixText(p: PhonePrefix): string {
    match p
    case CountryCode => "254"
    case PlusCountryCode => "+254"
    case TrunkZero => "0"
    case NoPrefix => ""
  }

  predicate StartsWith(s: string, prefix: string) {
    |prefix| <= |s| && s[..|prefix|] == prefix
  }

  /** `s` is the prefix `p` followed by a subscriber number. */
  predicate SplitsAs(s: string, p: PhonePrefix) {
    StartsWith(s, PrefixText(p)) && IsSubscriber(s[|PrefixText(p)|..])
  }

  /** The match of `^(?:254|\+254|0)?(7[0-9]{8})$`: the prefix consumed and the
      subscriber number captured, or None when the pattern does not match. */
  function MatchPhone(s: string): (r: Option<(PhonePrefix, string)>)
    ensures r.Some? ==> PrefixText(r.value.0) + r.value.1 == s && IsSubscriber(r.value.1)
    ensures r.None? <==> forall p: PhonePrefix :: !SplitsAs(s, p)
  {
    if SplitsAs(s, CountryCode) then
      assert s[..3] + s[3..] == s;
      Some((CountryCode, s[3..]))
    else if SplitsAs(s, PlusCountryCode) then
      assert s[..4] + s[4..] == s;
      Some((PlusCountryCode, s[4..]))
    else if SplitsAs(s, TrunkZero) then
      assert s[..1] + s[1..] == s;
      Some((TrunkZero, s[1..]))
    else if SplitsAs(s, NoPrefix) then
      assert s[0..] == s;
      Some((NoPrefix, s))
    else
      None
  }

  predicate PhoneAccepted(s: string) {
    MatchPhone(s).Some?
  }

  /** A string matches the pattern in at most one way. */
  lemma PhoneSplitUnique(s: string, p: PhonePrefix, q: PhonePrefix)
    requires SplitsAs(s, p) && SplitsAs(s, q)
    ensures p == q
  {
  }

  /** The normalising transform, applied in order: a leading "0" is replaced by
      "+254", a leading "254" gets a "+", anything else without a leading "+"
      gets a "+", and a leading "+" is kept. */
  function NormalizePhone(phone: string): (r: string)
    ensures |r| > 0 && r[0] == '+'
  {
    if StartsWith(phone, "0") then "+254" + phone[1..]
    else if StartsWith(phone, "254") then "+" + phone
    else if !StartsWith(phone, "+") then "+" + phone
    else phone
  }

  /** What normalisation makes of an accepted number: "+254" and the
      subscriber number for every prefixed form, but only "+" and the
      subscriber number for a bare subscriber number. */
  lemma NormalizeAccepted(s: string, p: PhonePrefix, sub: string)
    requires MatchPhone(s) == Some((p, sub))
    ensures NormalizePhone(s) == if p == NoPrefix then "+" + sub else "+254" + sub
  {
    match p
    case CountryCode =>
      assert s == "254" + sub;
      assert "+" + ("254" + sub) == "+254" + sub;
    case PlusCountryCode =>
      assert s == "+254" + sub && s[0] == '+';
    case TrunkZero =>
      assert s == "0" + sub && s[1..] == sub;
    case NoPrefix =>
      assert s == sub && s[0] == '7';
  }

  /** Normalising twice is normalising once: the result always starts with "+". */
  lemma NormalizeIdempotent(s: string)
    ensures NormalizePhone(NormalizePhone(s)) == NormalizePhone(s)
  {
  }

  /** A number entered with a prefix normalises to the canonical "+254" form,
      which the pattern accepts again; a bare subscriber number normalises to a
      string the pattern rejects. */
  lemma NormalizedReparses(s: string, p: PhonePrefix, sub: string)
    requires MatchPhone(s) == Some((p, sub))
    ensures p != NoPrefix ==> MatchPhone(NormalizePhone(s)) == Some((PlusCountryCode, sub))
    ensures p == NoPrefix ==> !PhoneAccepted(NormalizePhone(s))
  {
    NormalizeAccepted(s, p, sub);
    var n := NormalizePhone(s);
    if p != NoPrefix {
      assert n == "+254" + sub;
      assert n[..4] == "+254" && n[4..] == sub;
      assert !SplitsAs(n, CountryCode) && SplitsAs(n, PlusCountryCode);
    } else {
      assert n == "+" + sub && |n| == 10 && n[1] == '7';
      assert !SplitsAs(n, PlusCountryCode);
    }
  }

  /** Each of the four spellings of a subscriber number matches, with the
      prefix it was written with. */
  lemma SpellingsMatch(sub: string)
    requires IsSubscriber(sub)
    ensures MatchPhone("254" + sub) == Some((CountryCode, sub))
    ensures MatchPhone("+254" + sub) == Some((PlusCountryCode, sub))
    ensures MatchPhone("0" + sub) == Some((TrunkZero, sub))
    ensures MatchPhone(sub) == Some((NoPrefix, sub))
  {
    MatchesWithPrefix(sub, CountryCode);
    MatchesWithPrefix(sub, PlusCountryCode);
    MatchesWithPrefix(sub, TrunkZero);
    MatchesWithPrefix(sub, NoPrefix);
  }

  /** The prefixes are told apart by their first character, and a subscriber
      number starts with none of them. */
  lemma MatchesWithPrefix(sub: string, p: PhonePrefix)
    requires IsSubscriber(sub)
    ensures MatchPhone(PrefixText(p) + sub) == Some((p, sub))
  {
    var s := PrefixText(p) + sub;
    var n := |PrefixText(p)|;
    assert s[..n] == PrefixText(p) && s[n..] == sub;
    assert SplitsAs(s, p);
    if p != CountryCode {
      assert s[0] != '2';
      assert !StartsWith(s, "254");
    }
    if p != PlusCountryCode {
      assert s[0] != '+';
      assert !StartsWith(s, "+254");
    }
    if p != TrunkZero {
      assert s[0] != '0';
      assert !StartsWith(s, "0");
    }
  }

  /** The three prefixed spellings of a number normalise to the same
      "+254" form; the bare spelling normalises to "+" and the number. */
  lemma SpellingsNormalize(sub: string)
    requires IsSubscriber(sub)
    ensures NormalizePhone("0" + sub) == "+254" + sub
    ensures NormalizePhone("254" + sub) == "+254" + sub
    ensures NormalizePhone("+254" + sub) == "+254" + sub
    ensures NormalizePhone(sub) == "+" + sub
  {
    SpellingsMatch(sub);
    NormalizeAccepted("0" + sub, TrunkZero, sub);
    NormalizeAccepted("254" + sub, CountryCode, sub);
    NormalizeAccepted("+254" + sub, PlusCountryCode, sub);
    NormalizeAccepted(sub, NoPrefix, sub);
  }

  /** A bare subscriber number such as "712345678" is accepted, and its
      normalised form, "+712345678" for that one, is rejected. */
  lemma BareSpellingRejected(sub: string)
    requires IsSubscriber(sub)
    ensures PhoneAccepted(sub) && NormalizePhone(sub) == "+" + sub && !PhoneAccepted("+" + sub)
  {
    SpellingsMatch(sub);
    NormalizedReparses(sub, NoPrefix, sub);
    NormalizeAccepted(sub, NoPrefix, sub);
  }

  // ---------------------------------------------------------------- personal details

  predicate IsAsciiLetter(c: char) {
    'a' <= c <= 'z' || 'A' <= c <= 'Z'
  }

  /** `\s` of a JavaScript regular expression: the ASCII controls TAB to CR,
      SPACE, and the Unicode space separators, line and paragraph separators
      and byte-order mark. */
  predicate IsJsWhitespace(c: char) {
    var n := c as int;
    (9 <= n <= 13) || n == 32 || n == 0xA0 || n == 0x1680 || (0x2000 <= n <= 0x200A)
    || n == 0x2028 || n == 0x2029 || n == 0x202F || n == 0x205F || n == 0x3000 || n == 0xFEFF
  }

  /** At least three characters, all of them `[a-zA-Z\s]`. */
  predicate FullNameAccepted(name: string) {
    |name| >= 3 && forall i :: 0 <= i < |name| ==> IsAsciiLetter(name[i]) || IsJsWhitespace(name[i])
  }

  /** What the rules that are library calls in the source need from the
      environment: the current calendar year, the e-mail shape check, and the
      year of a date string (None when the string does not parse as a date). */
  datatype Context = Context(currentYear: int, isEmail: string -> bool, birthYear: string -> Option<int>)

  /** Age by calendar year only: the date must parse, and the current year
      minus the birth year must lie in 18..65. */
  predicate DateOfBirthAccepted(dob: string, ctx: Context) {
    match ctx.birthYear(dob)
    case None => false
    case Some(year) => var age := ctx.currentYear - year; age >= 18 && age <= 65
  }

  // ---------------------------------------------------------------- loan and employment

  const MinAmount: int := 5000
  const MaxAmount: int := 5000000
  const AmountStep: int := 100

  predicate AmountAccepted(amount: int) {
    amount >= MinAmount && amount <= MaxAmount && amount % AmountStep == 0
  }

  predicate TenureAccepted(tenure: int) {
    tenure >= 3 && tenure <= 60
  }

  /** The enumeration of the purpose rule. */
  const PurposeEnum: seq<string> := ["BUSINESS", "EDUCATION", "HOME_IMPROVEMENT", "MEDICAL", "VEHICLE", "OTHER"]

  /** The enumeration OR any string: the second alternative accepts every string. */
  predicate PurposeAccepted(purpose: string) {
    purpose in PurposeEnum || true
  }

  predicate MonthlyIncomeAccepted(income: int) {
    income >= 0
  }

  /** The amount boundaries: both ends are accepted, one step below the
      minimum, one unit above the maximum and an amount off the 100 grid are
      rejected. */
  lemma AmountBoundaries()
    ensures AmountAccepted(5000) && AmountAccepted(5000000)
    ensures !AmountAccepted(4900) && !AmountAccepted(5050) && !AmountAccepted(5000001)
  {
  }

  /** An amount is accepted exactly when it is 100 times a whole number in 50..50000. */
  lemma AmountGrid(amount: int)
    ensures AmountAccepted(amount) <==> exists k :: 50 <= k <= 50000 && amount == 100 * k
  {
    if AmountAccepted(amount) {
      var k := amount / 100;
      assert amount == 100 * k;
    }
  }

  /** Every purpose passes, including the option values the form offers,
      which are not in the upper-case enumeration, and the empty string. */
  lemma PurposeAcceptsAnyString(purpose: string)
    ensures PurposeAccepted(purpose)
    ensures "business" !in PurposeEnum && PurposeAccepted("business") && PurposeAccepted("")
  {
  }

  // ---------------------------------------------------------------- sections

  datatype PersonalDetails = PersonalDetails(
    fullName: string,
    idNumber: string,
    dateOfBirth: string,
    phoneNumber: string,
    email: string,
    existingCustomer: bool)

  datatype LoanDetails = LoanDetails(amount: int, tenure: int, purpose: string, additionalInfo: string)

  datatype EmploymentDetails = EmploymentDetails(
    employmentType: string,
    employer: string,
    jobTitle: string,
    monthlyIncome: int,
    durationYears: int,
    durationMonths: int,
    payrollAccount: string)

  datatype Application = Application(personal: PersonalDetails, loan: LoanDetails, employment: EmploymentDetails)

  /** The parsed phone field: the normalised number when the pattern matches. */
  function ParsePhone(phone: string): (r: Option<string>)
    ensures r.Some? <==> PhoneAccepted(phone)
    ensures r.Some? ==> r.value == NormalizePhone(phone) && StartsWith(r.value, "+")
  {
    if PhoneAccepted(phone) then Some(NormalizePhone(phone)) else None
  }

  /** The personal section's parse: every field rule must pass; the parsed
      value differs from the input only in the normalised phone number. */
  function ParsePersonal(p: PersonalDetails, ctx: Context): (r: Option<PersonalDetails>)
    ensures r.Some? <==>
      FullNameAccepted(p.fullName) && KenyanIdAccepted(p.idNumber) && DateOfBirthAccepted(p.dateOfBirth, ctx)
      && PhoneAccepted(p.phoneNumber) && ctx.isEmail(p.email)
    ensures r.Some? ==> r.value == p.(phoneNumber := NormalizePhone(p.phoneNumber))
  {
    if FullNameAccepted(p.fullName) && KenyanIdAccepted(p.idNumber)
       && DateOfBirthAccepted(p.dateOfBirth, ctx) && ctx.isEmail(p.email)
    then
      match ParsePhone(p.phoneNumber)
      case Some(phone) => Some(p.(phoneNumber := phone))
      case None => None
    else None
  }

  function ParseLoan(l: LoanDetails): (r: Option<LoanDetails>)
    ensures r.Some? <==> AmountAccepted(l.amount) && TenureAccepted(l.tenure)
    ensures r.Some? ==> r.value == l
  {
    if AmountAccepted(l.amount) && TenureAccepted(l.tenure) && PurposeAccepted(l.purpose) then Some(l) else None
  }

  function ParseEmployment(e: EmploymentDetails): (r: Option<EmploymentDetails>)
    ensures r.Some? <==> e.monthlyIncome >= 0
    ensures r.Some? ==> r.value == e
  {
    if MonthlyIncomeAccepted(e.monthlyIncome) then Some(e) else None
  }

  /** The whole-form parse run before submitting or saving. */
  function ParseApplication(a: Application, ctx: Context): (r: Option<Application>)
    ensures r.Some? <==> ParsePersonal(a.personal, ctx).Some? && ParseLoan(a.loan).Some? && ParseEmployment(a.employment).Some?
    ensures r.Some? ==> r.value.personal == ParsePersonal(a.personal, ctx).value
    ensures r.Some? ==> r.value.loan == a.loan && r.value.employment == a.employment
  {
    match (ParsePersonal(a.personal, ctx), ParseLoan(a.loan), ParseEmployment(a.employment))
    case (Some(p), Some(l), Some(e)) => Some(Application(p, l, e))
    case _ => None
  }

  /** A name made only of spaces is accepted; two letters are not. */
  lemma ExampleNames()
    ensures FullNameAccepted("   ") && FullNameAccepted("John Kamau")
    ensures !FullNameAccepted("Jo") && !FullNameAccepted("J0hn")
  {
    assert !(IsAsciiLetter("J0hn"[1]) || IsJsWhitespace("J0hn"[1]));
  }

  /** Two accepted names joined by a space make an accepted name, and an
      accepted name stays accepted when letters are appended. */
  lemma {:induction false} FullNameJoin(first: string, last: string, letters: string)
    requires FullNameAccepted(first) && FullNameAccepted(last)
    requires forall i :: 0 <= i < |letters| ==> IsAsciiLetter(letters[i])
    ensures FullNameAccepted(first + " " + last)
    ensures FullNameAccepted(first + letters)
  {
    var joined := first + " " + last;
    forall i | 0 <= i < |joined|
      ensures IsAsciiLetter(joined[i]) || IsJsWhitespace(joined[i])
    {
      if i < |first| {
        assert joined[i] == first[i];
      } else if i == |first| {
        assert joined[i] == ' ';
      } else {
        assert joined[i] == last[i - |first| - 1];
      }
    }
    var longer := first + letters;
    forall i | 0 <= i < |longer|
      ensures IsAsciiLetter(longer[i]) || IsJsWhitespace(longer[i])
    {
      if i < |first| {
        assert longer[i] == first[i];
      } else {
        assert longer[i] == letters[i - |first|];
      }
    }
  }

  /** The age window: a date that parses is accepted exactly when its year
      lies between 65 and 18 years before the current year, both included. */
  lemma AgeWindow(dob: string, ctx: Context, year: int)
    requires ctx.birthYear(dob) == Some(year)
    ensures DateOfBirthAccepted(dob, ctx) <==> ctx.currentYear - 65 <= year <= ctx.currentYear - 18
  {
  }

  /** A date string that does not parse is rejected, whatever the current year. */
  lemma UnparsableDateRejected(dob: string, ctx: Context)
    requires ctx.birthYear(dob) == None
    ensures !DateOfBirthAccepted(dob, ctx)
  {
  }
}

=== FILE: Store.dfy ===
/** The persisted wizard state: the current step, the three application
    sections, the five document slots and the metadata, changed only through
    the store's actions; the persisted projection; and the summary derived
    from a state. Timestamps are milliseconds and identifiers are strings,
    both handed in by the caller. */
module Store {
  import opened Wrappers
  import opened Schemas

  /** A browser file handle, known here by its name only. */
  datatype FileRef = FileRef(name: string)

  datatype Documents = Documents(
    idFront: Option<FileRef>,
    idBack: Option<FileRef>,
    payslip: Option<FileRef>,
    residence: Option<FileRef>,
    statement: Option<FileRef>)

  /** The keys of the document record. */
  datatype DocSlot = IdFrontSlot | IdBackSlot | PayslipSlot | ResidenceSlot | StatementSlot

  const InitialPersonal: PersonalDetails := PersonalDetails("", "", "", "", "", false)
  const InitialLoan: LoanDetails := LoanDetails(50000, 12, "", "")
  const InitialEmployment: EmploymentDetails := EmploymentDetails("", "", "", 0, 0, 0, "")
  const InitialDocuments: Documents := Documents(None, None, None, None, None)

  // ---------------------------------------------------------------- partial patches

  /** A partial record: a field is None when the patch does not carry its key. */
  datatype PersonalPatch = PersonalPatch(
    fullName: Option<string>,
    idNumber: Option<string>,
    dateOfBirth: Option<string>,
    phoneNumber: Option<string>,
    email: Option<string>,
    existingCustomer: Option<bool>)

  datatype LoanPatch = LoanPatch(
    amount: Option<int>,
    tenure: Option<int>,
    purpose: Option<string>,
    additionalInfo: Option<string>)

  datatype EmploymentPatch = EmploymentPatch(
    employmentType: Option<string>,
    employer: Option<string>,
    jobTitle: Option<string>,
    monthlyIncome: Option<int>,
    durationYears: Option<int>,
    durationMonths: Option<int>,
    payrollAccount: Option<string>)

  /** A document slot may be set to a file or back to null. */
  datatype DocumentsPatch = DocumentsPatch(
    idFront: Option<Option<FileRef>>,
    idBack: Option<Option<FileRef>>,
    payslip: Option<Option<FileRef>>,
    residence: Option<Option<FileRef>>,
    statement: Option<Option<FileRef>>)

  /** `{ ...current, ...patch }` for one key. */
  function Spread<T>(patch: Option<T>, current: T): T {
    patch.GetOr(current)
  }

  function MergePersonal(d: PersonalDetails, p: PersonalPatch): PersonalDetails {
    PersonalDetails(
      Spread(p.fullName, d.fullName), Spread(p.idNumber, d.idNumber), Spread(p.dateOfBirth, d.dateOfBirth),
      Spread(p.phoneNumber, d.phoneNumber), Spread(p.email, d.email), Spread(p.existingCustomer, d.existingCustomer))
  }

  function MergeLoan(d: LoanDetails, p: LoanPatch): LoanDetails {
    LoanDetails(Spread(p.amount, d.amount), Spread(p.tenure, d.tenure), Spread(p.purpose, d.purpose),
                Spread(p.additionalInfo, d.additionalInfo))
  }

  function MergeEmployment(d: EmploymentDetails, p: EmploymentPatch): EmploymentDetails {
    EmploymentDetails(
      Spread(p.employmentType, d.employmentType), Spread(p.employer, d.employer), Spread(p.jobTitle, d.jobTitle),
      Spread(p.monthlyIncome, d.monthlyIncome), Spread(p.durationYears, d.durationYears),
      Spread(p.durationMonths, d.durationMonths), Spread(p.payrollAccount, d.payrollAccount))
  }

  function MergeDocuments(d: Documents, p: DocumentsPatch): Documents {
    Documents(Spread(p.idFront, d.idFront), Spread(p.idBack, d.idBack), Spread(p.payslip, d.payslip),
              Spread(p.residence, d.residence), Spread(p.statement, d.statement))
  }

  /** The patch that carries every key of a complete section. */
  function FullPersonalPatch(d: PersonalDetails): PersonalPatch {
    PersonalPatch(Some(d.fullName), Some(d.idNumber), Some(d.dateOfBirth), Some(d.phoneNumber), Some(d.email),
                  Some(d.existingCustomer))
  }

  function FullLoanPatch(d: LoanDetails): LoanPatch {
    LoanPatch(Some(d.amount), Some(d.tenure), Some(d.purpose), Some(d.additionalInfo))
  }

  function FullEmploymentPatch(d: EmploymentDetails): EmploymentPatch {
    EmploymentPatch(Some(d.employmentType), Some(d.employer), Some(d.jobTitle), Some(d.monthlyIncome),
                    Some(d.durationYears), Some(d.durationMonths), Some(d.payrollAccount))
  }

  /** The patch that carries the one key `slot`. */
  function SlotPatch(slot: DocSlot, f: Option<FileRef>): DocumentsPatch {
    match slot
    case IdFrontSlot => DocumentsPatch(Some(f), None, None, None, None)
    case IdBackSlot => DocumentsPatch(None, Some(f), None, None, None)
    case PayslipSlot => DocumentsPatch(None, None, Some(f), None, None)
    case ResidenceSlot => DocumentsPatch(None, None, None, Some(f), None)
    case StatementSlot => DocumentsPatch(None, None, None, None, Some(f))
  }

  function Slot(d: Documents, slot: DocSlot): Option<FileRef> {
    match slot
    case IdFrontSlot => d.idFront
    case IdBackSlot => d.idBack
    case PayslipSlot => d.payslip
    case ResidenceSlot => d.residence
    case StatementSlot => d.statement
  }

  /** Merging a complete section's patch yields that section, whatever was there. */
  lemma MergeFullPatches(p: PersonalDetails, p0: PersonalDetails, l: LoanDetails, l0: LoanDetails,
                         e: EmploymentDetails, e0: EmploymentDetails)
    ensures MergePersonal(p0, FullPersonalPatch(p)) == p
    ensures MergeLoan(l0, FullLoanPatch(l)) == l
    ensures MergeEmployment(e0, FullEmploymentPatch(e)) == e
  {
  }

  /** Setting one document slot changes that slot and no other. */
  lemma MergeSlotPatch(d: Documents, slot: DocSlot, f: Option<FileRef>, other: DocSlot)
    ensures Slot(MergeDocuments(d, SlotPatch(slot, f)), slot) == f
    ensures other != slot ==> Slot(MergeDocuments(d, SlotPatch(slot, f)), other) == Slot(d, other)
  {
  }

  /** Merging the same patch twice is merging it once. */
  lemma MergeIdempotent(p: PersonalDetails, pp: PersonalPatch, l: LoanDetails, lp: LoanPatch,
                        e: EmploymentDetails, ep: EmploymentPatch, d: Documents, dp: DocumentsPatch)
    ensures MergePersonal(MergePersonal(p, pp), pp) == MergePersonal(p, pp)
    ensures MergeLoan(MergeLoan(l, lp), lp) == MergeLoan(l, lp)
    ensures MergeEmployment(MergeEmployment(e, ep), ep) == MergeEmployment(e, ep)
    ensures MergeDocuments(MergeDocuments(d, dp), dp) == MergeDocuments(d, dp)
  {
  }

  // ---------------------------------------------------------------- state

  datatype StoreState = StoreState(
    step: int,
    personalDetails: PersonalDetails,
    loanDetails: LoanDetails,
    employmentDetails: EmploymentDetails,
    documents: Documents,
    applicationId: string,
    createdAt: int,
    lastModified: int,
    sessionId: string)

  /** The state of a store created at `now`. */
  function InitialState(applicationId: string, sessionId: string, now: int): StoreState {
    StoreState(1, InitialPersonal, InitialLoan, InitialEmployment, InitialDocuments, applicationId, now, now, sessionId)
  }

  function StepSet(s: StoreState, step: int, now: int): StoreState {
    s.(step := step, lastModified := now)
  }

  function PersonalUpdated(s: StoreState, patch: PersonalPatch, now: int): StoreState {
    s.(personalDetails := MergePersonal(s.personalDetails, patch), lastModified := now)
  }

  function LoanUpdated(s: StoreState, patch: LoanPatch, now: int): StoreState {
    s.(loanDetails := MergeLoan(s.loanDetails, patch), lastModified := now)
  }

  function EmploymentUpdated(s: StoreState, patch: EmploymentPatch, now: int): StoreState {
    s.(employmentDetails := MergeEmployment(s.employmentDetails, patch), lastModified := now)
  }

  function DocumentsUpdated(s: StoreState, patch: DocumentsPatch, now: int): StoreState {
    s.(documents := MergeDocuments(s.documents, patch), lastModified := now)
  }

  /** The reset: defaults everywhere, a new application id, createdAt and
      sessionId left as they were. */
  function Cleared(s: StoreState, freshId: string, now: int): StoreState {
    s.(step := 1, personalDetails := InitialPersonal, loanDetails := InitialLoan,
       employmentDetails := InitialEmployment, documents := InitialDocuments,
       applicationId := freshId, lastModified := now)
  }

  /** A reset state is a newly created one with the old session and creation
      time: step 1, amount 50000, tenure 12, empty strings, zero numbers, no
      existing customer, no documents, and the fresh id. */
  lemma ClearedIsInitial(s: StoreState, freshId: string, now: int)
    ensures Cleared(s, freshId, now) == InitialState(freshId, s.sessionId, now).(createdAt := s.createdAt)
    ensures var c := Cleared(s, freshId, now);
      c.step == 1 && c.loanDetails.amount == 50000 && c.loanDetails.tenure == 12
      && c.sessionId == s.sessionId && c.createdAt == s.createdAt && c.applicationId == freshId
  {
  }

  /** Applying the same patch twice leaves the state of applying it once, up
      to the modification time, which is the later one. */
  lemma UpdateTwiceIsOnce(s: StoreState, pp: PersonalPatch, lp: LoanPatch, ep: EmploymentPatch,
                          dp: DocumentsPatch, t1: int, t2: int)
    ensures PersonalUpdated(PersonalUpdated(s, pp, t1), pp, t2) == PersonalUpdated(s, pp, t2)
    ensures LoanUpdated(LoanUpdated(s, lp, t1), lp, t2) == LoanUpdated(s, lp, t2)
    ensures EmploymentUpdated(EmploymentUpdated(s, ep, t1), ep, t2) == EmploymentUpdated(s, ep, t2)
    ensures DocumentsUpdated(DocumentsUpdated(s, dp, t1), dp, t2) == DocumentsUpdated(s, dp, t2)
  {
    MergeIdempotent(s.personalDetails, pp, s.loanDetails, lp, s.employmentDetails, ep, s.documents, dp);
  }

  // ---------------------------------------------------------------- persistence

  /** The persisted record: every field but the documents. */
  datatype PersistedState = PersistedState(
    step: int,
    personalDetails: PersonalDetails,
    loanDetails: LoanDetails,
    employmentDetails: EmploymentDetails,
    applicationId: string,
    createdAt: int,
    lastModified: int,
    sessionId: string)

  function Partialize(s: StoreState): (p: PersistedState)
    ensures p.step == s.step && p.applicationId == s.applicationId && p.sessionId == s.sessionId
  {
    PersistedState(s.step, s.personalDetails, s.loanDetails, s.employmentDetails,
                   s.applicationId, s.createdAt, s.lastModified, s.sessionId)
  }

  /** The persisted record does not depend on the documents: two states that
      differ only there persist identically, and a document update persists
      as a change of the modification time alone. */
  lemma PartializeIgnoresDocuments(s: StoreState, d: Documents, dp: DocumentsPatch, now: int)
    ensures Partialize(s.(documents := d)) == Partialize(s)
    ensures Partialize(DocumentsUpdated(s, dp, now)) == Partialize(s).(lastModified := now)
  {
  }

  /** Two states with the same persisted record differ at most in their documents. */
  lemma PartializeDeterminesAllButDocuments(s: StoreState, t: StoreState)
    requires Partialize(s) == Partialize(t)
    ensures s.(documents := t.documents) == t
  {
  }

  /** Loading a persisted record into a store: the persisted keys are merged
      over the freshly created state, so the documents keep the fresh
      state's value. */
  function Rehydrated(created: StoreState, p: PersistedState): StoreState {
    created.(step := p.step, personalDetails := p.personalDetails, loanDetails := p.loanDetails,
             employmentDetails := p.employmentDetails, applicationId := p.applicationId,
             createdAt := p.createdAt, lastModified := p.lastModified, sessionId := p.sessionId)
  }

  /** Persisting and then reloading into a new store gives back the state
      except the documents, which come back empty. */
  lemma RehydrateRestoresAllButDocuments(s: StoreState, appId: string, session: string, now: int)
    ensures Rehydrated(InitialState(appId, session, now), Partialize(s)) == s.(documents := InitialDocuments)
    ensures Partialize(Rehydrated(InitialState(appId, session, now), Partialize(s))) == Partialize(s)
  {
  }

  // ---------------------------------------------------------------- summary

  /** The values of a record as `Object.values` lists them. */
  datatype JsValue = Str(str: string) | Bool(truth: bool) | Num(num: int)

  function PersonalValues(p: PersonalDetails): seq<JsValue> {
    [Str(p.fullName), Str(p.idNumber), Str(p.dateOfBirth), Str(p.phoneNumber), Str(p.email), Bool(p.existingCustomer)]
  }

  /** `val !== '' && val !== false` */
  predicate Filled(v: JsValue) {
    v != Str("") && v != Bool(false)
  }

  function DocumentValues(d: Documents): seq<Option<FileRef>> {
    [d.idFront, d.idBack, d.payslip, d.residence, d.statement]
  }

  /** The length of `filter(Boolean)`: the number of slots holding a file. */
  function CountPresent(slots: seq<Option<FileRef>>): (n: int)
    ensures 0 <= n <= |slots|
    ensures n == |slots| <==> forall i :: 0 <= i < |slots| ==> slots[i].Some?
    ensures n == 0 <==> forall i :: 0 <= i < |slots| ==> slots[i].None?
  {
    if slots == [] then 0
    else (if slots[0].Some? then 1 else 0) + CountPresent(slots[1..])
  }

  /** Every value of the personal section is filled exactly when every string
      is non-empty and the customer flag is true. */
  lemma PersonalFilledIff(p: PersonalDetails)
    ensures (forall i :: 0 <= i < |PersonalValues(p)| ==> Filled(PersonalValues(p)[i])) <==>
      p.fullName != "" && p.idNumber != "" && p.dateOfBirth != "" && p.phoneNumber != "" && p.email != ""
      && p.existingCustomer
  {
    var values := PersonalValues(p);
    if forall i :: 0 <= i < |values| ==> Filled(values[i]) {
      assert Filled(values[0]) && Filled(values[1]) && Filled(values[2]);
      assert Filled(values[3]) && Filled(values[4]) && Filled(values[5]);
    }
  }

  /** No slot holds a file exactly when the documents are the initial ones. */
  lemma NoDocumentsIff(d: Documents)
    ensures CountPresent(DocumentValues(d)) == 0 <==> d == InitialDocuments
  {
    var slots := DocumentValues(d);
    if CountPresent(slots) == 0 {
      assert slots[0].None? && slots[1].None? && slots[2].None? && slots[3].None? && slots[4].None?;
    }
  }

  datatype Summary = Summary(
    totalSteps: int,
    currentStep: int,
    completionPercentage: int,
    personalDetailsComplete: bool,
    loanDetailsComplete: bool,
    employmentDetailsComplete: bool,
    documentsUploaded: int,
    timeSpent: int)

  /** The derived summary at time `now`. */
  function ApplicationSummary(s: StoreState, now: int): (r: Summary)
    ensures r.totalSteps == 5 && r.currentStep == s.step
    ensures r.completionPercentage == 20 * s.step
    ensures r.personalDetailsComplete <==>
      var p := s.personalDetails;
      p.fullName != "" && p.idNumber != "" && p.dateOfBirth != "" && p.phoneNumber != "" && p.email != ""
      && p.existingCustomer
    ensures r.loanDetailsComplete <==>
      s.loanDetails.amount > 0 && s.loanDetails.tenure > 0 && s.loanDetails.purpose != ""
    ensures r.employmentDetailsComplete <==>
      s.employmentDetails.monthlyIncome > 15000 && s.employmentDetails.employer != "" && s.employmentDetails.jobTitle != ""
    ensures 0 <= r.documentsUploaded <= 5
    ensures r.documentsUploaded == 0 <==> s.documents == InitialDocuments
    ensures r.timeSpent * 60000 <= now - s.createdAt < (r.timeSpent + 1) * 60000
  {
    var values := PersonalValues(s.personalDetails);
    PersonalFilledIff(s.personalDetails);
    NoDocumentsIff(s.documents);
    Summary(
      5,
      s.step,
      s.step * 100 / 5,
      forall i :: 0 <= i < |values| ==> Filled(values[i]),
      s.loanDetails.amount > 0 && s.loanDetails.tenure > 0 && s.loanDetails.purpose != "",
      s.employmentDetails.monthlyIncome > 15000 && s.employmentDetails.employer != "" && s.employmentDetails.jobTitle != "",
      CountPresent(DocumentValues(s.documents)),
      (now - s.createdAt) / 60000)
  }

  /** Right after a reset the summary shows step 1 of 5, nothing complete and
      no documents. */
  lemma SummaryAfterClear(s: StoreState, freshId: string, now: int, later: int)
    ensures var r := ApplicationSummary(Cleared(s, freshId, now), later);
      r.completionPercentage == 20 && !r.personalDetailsComplete && r.loanDetailsComplete == false
      && !r.employmentDetailsComplete && r.documentsUploaded == 0
  {
  }

  // ---------------------------------------------------------------- the store object

  class LoanStore {
    var step: int
    var personalDetails: PersonalDetails
    var loanDetails: LoanDetails
    var employmentDetails: EmploymentDetails
    var documents: Documents
    var applicationId: string
    var createdAt: int
    var lastModified: int
    var sessionId: string

    function State(): StoreState
      reads this
    {
      StoreState(step, personalDetails, loanDetails, employmentDetails, documents,
                 applicationId, createdAt, lastModified, sessionId)
    }

    /** The store as first created, with a new application and session id. */
    constructor (appId: string, session: string, now: int)
      ensures State() == InitialState(appId, session, now)
    {
      step := 1;
      personalDetails := InitialPersonal;
      loanDetails := InitialLoan;
      employmentDetails := InitialEmployment;
      documents := InitialDocuments;
      applicationId := appId;
      createdAt := now;
      lastModified := now;
      sessionId := session;
    }

    /** Sets the step to exactly `s`, with no range check. */
    method SetStep(s: int, now: int)
      modifies this
      ensures step == s && lastModified == now
      ensures State() == old(State()).(step := s, lastModified := now)
    {
      step := s;
      lastModified := now;
    }

    method UpdatePersonalDetails(patch: PersonalPatch, now: int)
      modifies this
      ensures State() == PersonalUpdated(old(State()), patch, now)
    {
      personalDetails := MergePersonal(personalDetails, patch);
      lastModified := now;
    }

    method UpdateLoanDetails(patch: LoanPatch, now: int)
      modifies this
      ensures State() == LoanUpdated(old(State()), patch, now)
    {
      loanDetails := MergeLoan(loanDetails, patch);
      lastModified := now;
    }

    method UpdateEmploymentDetails(patch: EmploymentPatch, now: int)
      modifies this
      ensures State() == EmploymentUpdated(old(State()), patch, now)
    {
      employmentDetails := MergeEmployment(employmentDetails, patch);
      lastModified := now;
    }

    method UpdateDocuments(patch: DocumentsPatch, now: int)
      modifies this
      ensures State() == DocumentsUpdated(old(State()), patch, now)
      ensures Partialize(State()) == Partialize(old(State())).(lastModified := now)
    {
      documents := MergeDocuments(documents, patch);
      lastModified := now;
    }

    /** Resets to the defaults with the fresh id `freshId`; createdAt and
        sessionId are kept. */
    method ClearStore(freshId: string, now: int)
      modifies this
      ensures State() == Cleared(old(State()), freshId, now)
      ensures createdAt == old(createdAt) && sessionId == old(sessionId) && applicationId == freshId
    {
      step := 1;
      personalDetails := InitialPersonal;
      loanDetails := InitialLoan;
      employmentDetails := InitialEmployment;
      documents := InitialDocuments;
      applicationId := freshId;
      lastModified := now;
    }

    /** What is written to local storage: loading it back over the current
        state restores that state. */
    function Persisted(): (p: PersistedState)
      reads this
      ensures Rehydrated(State(), p) == State()
      ensures p.step == step && p.applicationId == applicationId && p.sessionId == sessionId
    {
      Partialize(State())
    }
  }
}

=== FILE: Wrappers.dfy ===
/** Optional values: a JavaScript `null`/`undefined` or an absent key. */
module Wrappers {

  datatype Option<+T> = None | Some(value: T) {

    /** The value, or `default` when there is none. */
    function GetOr(default: T): T {
      match this
      case Some(v) => v
      case None => default
    }
  }
}
